=== FILE: README.md ===
# Oozie testing stage: session control flow and exit status

This project models the core of `scripts/test_stage.py` of the Oozie
dockerised-cluster testing tool, and proves properties of the model in Dafny.
For every build configuration directory the script does the following:

1. It brings a docker-compose cluster up.
2. It sets up the testing environment in the Oozie server container.
3. It runs the Oozie examples there with a timeout.
4. It copies the example logfile, the pickled report records and the Oozie and
   Yarn logs to `testing/reports/<configuration name>/`.
5. It unpickles the records, deletes the records file, and writes
   `report_examples.xml`.
6. It tears the cluster down.

`main` runs one such session per directory, one after the other. It takes the
maximum of the session outcomes and calls `sys.exit` with it only when it is
nonzero.

The model has three modules:

- `ResultTransfer` (`result_transfer.dfy`) models `ReportUnpickler.find_class`.
  A class reference whose module is `"report"` is looked up by name in the
  local `report` namespace. Any other reference goes to the default
  resolution, which is a parameter. The module also has an abstract load of a
  pickled object stream. `ResultTransfer.Dump` models the pickling of the
  records inside the Oozie server container. That code runs in the container
  and is not part of `scripts/test_stage.py`; it is modelled only to state the
  round trip with the load.
- `ClusterSession` (`cluster_session.dfy`) models `copy_logs`,
  `write_report`, `perform_testing` and `start_cluster_and_perform_testing`.
  Every collaborator call is a `Call` value. A `Behaviour` says which calls
  raise, which exit code the example runner returns, and which log files the
  Oozie and Yarn log copies bring over (as paths relative to their target
  directories). A session is the
  trace of calls it made, with whether each returned or raised. It also holds
  the host files afterwards (a `set` of paths) and its outcome. The outcome is
  an exit code, or an escaping exception from `docker_compose_down`.
- `Orchestrator` (`orchestrator.dfy`) models `main` after the build. This
  covers the timeout default of 180, the lazy `map` consumed by `max`, and
  `sys.exit`.

The outside world enters only through parameters:

- `Behaviour` stands for docker-compose, `test_env`, the example runner,
  pickle and the XML renderer.
- The directory list stands for `dbd_build` and `iterdir`.
- The default class resolution is a function parameter.

## Model

| member | source | states |
|---|---|---|
| `ResultTransfer.FindClass` | scripts/test_stage.py:80-84 | A `report` reference resolves to the local namespace entry of that name. It fails when the name is missing there (the `__dict__[name]` KeyError). Any other module is handed to the default resolution unchanged. |
| `ResultTransfer.Load` | scripts/test_stage.py:123-124 | Loading succeeds exactly when every class reference of the stream resolves through `find_class`. The loaded objects then keep the stream's order, count and states. A failed load names the first reference that did not resolve: every earlier reference resolved. |
| `ResultTransfer.LoadDumpRoundTrip` | scripts/test_stage.py:73-84 | Records pickled in the container under module `report` load back on the host unchanged, in order, none lost or duplicated. This holds whatever the default resolution does, provided the local namespace holds each record class under its name. |
| `ResultTransfer.LoadFailsOnUnknownName` | scripts/test_stage.py:81-82 | A `report` reference whose name is not in the local namespace makes the whole load fail. |
| `ClusterSession.RunCalls` | scripts/test_stage.py:154-177 | Straight-line code runs its calls in order. The trace is a prefix of the calls, each call reached only when all earlier ones returned. It stops at the first call that raises, and completes exactly when none raised. |
| `ClusterSession.RunCallsFiles` | scripts/test_stage.py:154-177 | The files after straight-line code are the effects of the calls that returned, applied in order. A call that raised changes nothing. |
| `ClusterSession.CopyLogsCalls` | scripts/test_stage.py:105-107 | `copy_logs` copies the logfile and records into the report directory, then the Oozie logs into its `oozieserver` subdirectory, then the Yarn logs into its `nodemanager` subdirectory, in that order. |
| `ClusterSession.CopiesStayInside` | scripts/test_stage.py:105-107 | Every file that a call of `copy_logs` can create lies strictly inside the report directory it was given. |
| `ClusterSession.WriteReportCalls` | scripts/test_stage.py:122-130 | `write_report` opens `<dest>/<records file>`, loads it, deletes that same file, renders the report for the configuration and `dest`, then writes it to `<dest>/report_examples.xml`. |
| `ClusterSession.PerformTestingCalls` | scripts/test_stage.py:154-177 | `perform_testing` makes 12 calls, each at the position of its rank in the fixed order. The runner gets the timeout. |
| `ClusterSession.PerformTestingParts` | scripts/test_stage.py:154-175 | The first four calls are getting the server, setting up the environment, running the examples and getting the node manager. The next three are exactly `copy_logs` on `reports/<name>`, and the last five exactly `write_report` there, with the logfile and records names of lines 158-159. |
| `ClusterSession.FileNamesDistinct` | scripts/test_stage.py:158-159 | The logfile and records names of lines 158-159 and the report name `report_examples.xml` of line 129 name three distinct files of the report directory. |
| `ClusterSession.StartClusterAndPerformTesting` | scripts/test_stage.py:202-218 | A session's first call is `up` and its last is `down` on the configuration directory. The outcome is an escaping exception exactly when `down` raises. |
| `ClusterSession.SessionSteps` | scripts/test_stage.py:204-206 | Between `up` and `down` the session makes a prefix of `perform_testing`'s calls, and only if `up` returned. Each call is reached only when every earlier call returned. The call just before `down` raised exactly when an exception was caught; otherwise all 12 calls ran. The files afterwards are the effects of the calls that returned. |
| `ClusterSession.TeardownExactlyOnce` | scripts/test_stage.py:204-216 | `down` is called exactly once per session, as its last call, and `up` exactly once, as its first. This holds whichever step raised. |
| `ClusterSession.SessionOutcome` | scripts/test_stage.py:202-218 | The outcome equals a definition from the behaviour alone. An escaping exception comes from `down`. Otherwise the outcome is 2 if `up` or any `perform_testing` call raised, else the runner's exit code unchanged. So it does not depend on files left by other sessions. When the runner returns 0 or 1, the outcome is 2 exactly when an exception was caught. |
| `ClusterSession.ReportWrittenIffNoError` | scripts/test_stage.py:169-175 | Every report write goes to `reports/<build dir name>/report_examples.xml`. The report is written exactly when no exception was caught. A session whose `up` raised makes only the `up` and `down` calls. |
| `ClusterSession.RecordsDeletedBetweenLoadAndReport` | scripts/test_stage.py:122-130 | The records file at `reports/<name>/report_records.pickle` is deleted right after a successful load. Rendering comes right after a successful delete, and writing right after a successful render. |
| `ClusterSession.LoadFailureKeepsRecords` | scripts/test_stage.py:122-126 | When unpickling raises, the copied records file is still on the host after the session. |
| `ClusterSession.RecordsGoneOnceRendering` | scripts/test_stage.py:126-130 | Once rendering the report has started, the records file is gone after the session, whether rendering and writing returned or raised. |
| `ClusterSession.ReportFilePresence` | scripts/test_stage.py:128-130 | After a session, the report file exists exactly when no exception was caught or the file existed before. |
| `ClusterSession.RunnerGetsTimeout` | scripts/test_stage.py:161-167 | Every example run of a session gets the session's timeout. |
| `ClusterSession.LogsCopied` | scripts/test_stage.py:106-107 | Once the Oozie log copy returned, every Oozie log file is on the host after the session under `<report dir>/oozieserver`; likewise the Yarn logs under `<report dir>/nodemanager`. No later call of the session removes them. |
| `ClusterSession.OtherFilesUntouched` | scripts/test_stage.py:169-175 | A session creates or deletes files only inside its own report directory, log subdirectories included: every path outside it is present afterwards exactly when it was present before. |
| `Orchestrator.EffectiveTimeout` | scripts/test_stage.py:232 | The timeout is the command-line value when one is given, and 180 otherwise. |
| `Orchestrator.RunSessions` | scripts/test_stage.py:236-242 | Sessions run in directory order, one per directory, until one raises from its teardown. Every session but the last ran to a finished outcome. The sweep stops early only after a session whose teardown raised. |
| `Orchestrator.SweepKeeps` | scripts/test_stage.py:238-240 | A file outside every configuration's report directory is present after all the sessions exactly when it was present before. |
| `Orchestrator.SweepReports` | scripts/test_stage.py:238-240 | For directories with distinct names, as `iterdir` lists them: after all the sessions, the report of every configuration whose session ran exists exactly when that session caught no exception or the report was there before. An error in one session does not touch another configuration's report. |
| `Orchestrator.SessionsOfRuns` | scripts/test_stage.py:238-240 | Session `i` brings up and tears down directory `i`, exactly once each, and runs the examples with the shared timeout. |
| `Orchestrator.SessionsShareTimeout` | scripts/test_stage.py:232-240 | Every session of `main` uses one timeout: the command-line value if given, otherwise 180. Every session brings its own cluster up and down once. |
| `Orchestrator.AggregateIsMaximum` | scripts/test_stage.py:236-245 | When no teardown raises, every directory gets a session and each outcome is that session's own. `main` exits with the largest outcome when it is nonzero and returns normally when the largest is 0. |
| `Orchestrator.TeardownFailureAborts` | scripts/test_stage.py:238-242 | The first session whose `down` raises ends `main` with that exception, and the later sessions never start. |
| `Orchestrator.NoConfigurationsRaises` | scripts/test_stage.py:242 | An empty directory list makes `max` raise. No exit code is made up and no session runs. |
| `Orchestrator.PassThenStartFailure` | scripts/test_stage.py:236-245 | Take two configurations: the first passes and the second's cluster fails to come up. Then `main` exits with 2, the first has its report and the second has none. |
| `Orchestrator.Max` | scripts/test_stage.py:242 | The left-to-right `max` of a non-empty sequence returns an element of the sequence that no element exceeds. |
| `Orchestrator.TestStage` | scripts/test_stage.py:236-245 | An empty directory list, and only that, makes `main` raise from `max`, with no session run. Otherwise sessions run in order with the effective timeout, each with its own outcome. A raised teardown ends `main` with that directory's exception, as the last session. Otherwise every directory had a finished session. `sys.exit` gets a nonzero largest outcome, and `main` returns normally when the largest is 0. |
| `Orchestrator.Conclude` | scripts/test_stage.py:242-245 | Once the sessions are over, `main` ends with the teardown exception of the last session exactly when that teardown raised. Otherwise every directory had a finished session, and `sys.exit` gets a nonzero largest outcome while a largest outcome of 0 returns normally. |
| `Orchestrator.StageReports` | scripts/test_stage.py:236-245 | After `main`, for directories with distinct names, every configuration whose session ran has its own `report_examples.xml` exactly when its session caught no exception or the report was there before. |
| `Orchestrator.StageKeeps` | scripts/test_stage.py:236-245 | After the build, the sessions of `main` add or remove files only inside the configurations' report directories. |
| `Orchestrator.ExitStatus` | scripts/test_stage.py:242-245 | A loop mirrors `max(...)` followed by `if max_exit_code != 0: sys.exit(...)`. It returns the largest code, requests `sys.exit` only for a nonzero maximum, and raises on an empty sequence. |

## Left out

- Docker-compose, container setup, the contents of copied files and the example runner are not modelled; they are external I/O. Each is a `Call` whose raising is decided by `Behaviour`. A call that raises has no effect on the host files: a half-done copy is not modelled.
- The pickle byte format is not modelled. A stream is a sequence of objects, each a class reference plus a state. The unpickling step of a session (`LoadRecords`) raises according to `Behaviour`. `ResultTransfer.Load` describes when a real stream fails to resolve.
- XML rendering (`output.generate_report`) is not modelled; it is a foreign format. Only its call is modelled; writing its result (line 130) is `WriteXml`.
- Only the three copies, the unlink and the XML write change host files. docker-compose up/down, the container setup, the example runner and `output.generate_report` are taken to leave host files alone.
- Timeout enforcement is not modelled; the script only passes the value on.
- The whitelist, blacklist and validate arguments are not modelled; they are passed through to the runner untouched.
- `dbd_build.build_configs_with_dbd` is not modelled, and neither are the files it writes to the output directory and `./dbd_cache` (lines 231-234). The input list stands for the entries `iterdir` lists in the output directory, in its order.
- argparse, logging setup, `print`/`traceback` output and `write_to_file` are not modelled; they are CLI and I/O plumbing.
- Resolving the `inside_container` directory (line 155) is not modelled. It reads the file system and could raise, which the session's handler would catch as outcome 2. The model assumes it does not raise.
- Exceptions that are not `Exception` subclasses (`KeyboardInterrupt`, `SystemExit`) are not modelled: every raising call counts as caught by the session's handler.
- `Orchestrator.ExitStatus`: `SysExit(code)` records the code passed to `sys.exit`. The operating system's truncation of the status to 8 bits is not modelled.
- `ClusterSession.SessionOutcome`: the "2 exactly when an exception was caught" direction is stated only for runner exit codes 0 and 1. A runner that itself returns 2 cannot be told apart from a caught exception.

Behaviour of the code worth noting:

- When `docker_compose_down` raises, its exception escapes the session and ends `main`. It is not logged and skipped (`Outcome.TeardownRaised`, `Exit.Raised`).
- An empty configuration list makes `max` raise `ValueError` (`MainError.NoConfigurations`). It does not give exit code 0.
- The records file is deleted right after loading, before the report is rendered and written. So a render or write failure loses the records (`RecordsGoneOnceRendering`).

=== FILE: cluster_session.dfy ===
/** One build configuration's test session: `perform_testing`, `write_report`,
    `copy_logs` and `start_cluster_and_perform_testing`.

    Every collaborator call (docker-compose, the container set-up, the example
    runner, the log copies, the unpickling, the XML rendering and writing) is a
    `Call` value. A `Behaviour` says which calls raise, what exit code the
    example runner returns and which log files the containers hold. A session
    is the trace of the calls it made, in order, with whether each returned or
    raised, plus the files it left behind and its outcome.
 */
module ClusterSession {

  /** A filesystem path, as its sequence of components. */
  type Path = seq<string>

  /** `dir / name` */
  function Join(dir: Path, name: string): Path
  {
    dir + [name]
  }

  /** `Path.name`: the last component, or "" for the empty path. */
  function BaseName(p: Path): string
  {
    if p == [] then "" else p[|p| - 1]
  }

  const ExamplesLogfile: string := "example_runner.log"
  const RecordsFile: string := "report_records.pickle"
  const ReportFile: string := "report_examples.xml"

  /** The directory that receives one configuration's logs and report. */
  function ReportDir(reportsDir: Path, configDir: Path): Path
  {
    Join(reportsDir, BaseName(configDir))
  }

  /** Where the records file lands on the host, and where `write_report` reads it. */
  function RecordsPath(reportsDir: Path, configDir: Path): Path
  {
    Join(ReportDir(reportsDir, configDir), RecordsFile)
  }

  /** Where the junit-style report is written. */
  function ReportPath(reportsDir: Path, configDir: Path): Path
  {
    Join(ReportDir(reportsDir, configDir), ReportFile)
  }

  /** The logfile, the records file and the report are distinct files of the
      report directory. */
  lemma FileNamesDistinct(dest: Path)
    ensures Join(dest, ReportFile) != Join(dest, RecordsFile)
    ensures Join(dest, ReportFile) != Join(dest, ExamplesLogfile)
    ensures Join(dest, RecordsFile) != Join(dest, ExamplesLogfile)
  {
    assert |ExamplesLogfile| == 18 && |ReportFile| == 19 && |RecordsFile| == 21;
    assert Join(dest, ReportFile)[|dest|] == ReportFile;
    assert Join(dest, RecordsFile)[|dest|] == RecordsFile;
    assert Join(dest, ExamplesLogfile)[|dest|] == ExamplesLogfile;
  }

  /** The collaborator calls a session makes. */
  datatype Call =
    | ComposeUp(configDir: Path)
    | GetOozieServer
    | SetupTestingEnv
    | RunExamples(timeout: int)
    | GetNodeManager
    | CopyLogfileAndRecords(logfile: string, records: string, dest: Path)
    | CopyOozieLogs(dest: Path)
    | CopyYarnLogs(dest: Path)
    | OpenRecords(file: Path)
    | LoadRecords
    | DeleteRecords(file: Path)
    | GenerateReport(configName: string, dest: Path)
    | WriteXml(file: Path)
    | ComposeDown(configDir: Path)

  /** How the outside world answers: which calls raise, the exit code the
      example runner returns when it does not raise, and the log files found
      in the Oozie server and node manager containers, as paths relative to
      the directory they are copied into. */
  datatype Behaviour = Behaviour(raises: Call -> bool, runnerExit: int, oozieLogs: set<Path>, yarnLogs: set<Path>)

  /** One call of a trace, and whether it returned (`ok`) or raised. */
  datatype Event = Event(call: Call, ok: bool)

  /** The paths `rel` placed under the directory `dir`. */
  function Under(dir: Path, rel: set<Path>): set<Path>
  {
    set r | r in rel :: dir + r
  }

  /** `p` lies inside `dir`, at a path `rel` lists. */
  predicate IsUnder(p: Path, dir: Path, rel: set<Path>)
  {
    |dir| <= |p| && p[..|dir|] == dir && p[|dir|..] in rel
  }

  lemma UnderMembership(p: Path, dir: Path, rel: set<Path>)
    ensures p in Under(dir, rel) <==> IsUnder(p, dir, rel)
  {
    if p in Under(dir, rel) {
      var r :| r in rel && p == dir + r;
      assert p[..|dir|] == dir && p[|dir|..] == r;
    }
    if IsUnder(p, dir, rel) {
      assert p == dir + p[|dir|..];
    }
  }

  /** What a call that returns does to the files on the host. Only the
      copies, the unlink and the XML write touch them; docker-compose, the
      container setup, the runner and rendering are taken to leave them alone. */
  function Effect(c: Call, b: Behaviour, fs: set<Path>): set<Path>
  {
    match c
    case CopyLogfileAndRecords(logfile, records, dest) => fs + {Join(dest, logfile), Join(dest, records)}
    case CopyOozieLogs(dest) => fs + Under(dest, b.oozieLogs)
    case CopyYarnLogs(dest) => fs + Under(dest, b.yarnLogs)
    case DeleteRecords(file) => fs - {file}
    case WriteXml(file) => fs + {file}
    case _ => fs
  }

  /** The files after the events of a trace, applied left to right; a call
      that raised changes nothing. */
  function Replay(b: Behaviour, fs: set<Path>, events: seq<Event>): set<Path>
    decreases |events|
  {
    if events == [] then fs
    else Replay(b, if events[0].ok then Effect(events[0].call, b, fs) else fs, events[1..])
  }

  lemma {:induction false} ReplayAppend(b: Behaviour, fs: set<Path>, xs: seq<Event>, ys: seq<Event>)
    ensures Replay(b, fs, xs + ys) == Replay(b, Replay(b, fs, xs), ys)
    decreases |xs|
  {
    if xs == [] {
      assert xs + ys == ys;
    } else {
      assert (xs + ys)[1..] == xs[1..] + ys;
      ReplayAppend(b, if xs[0].ok then Effect(xs[0].call, b, fs) else fs, xs[1..], ys);
    }
  }

  /** The call, when it returns, creates or removes the file `p`. */
  predicate Touches(c: Call, b: Behaviour, p: Path)
  {
    match c
    case CopyLogfileAndRecords(logfile, records, dest) => p == Join(dest, logfile) || p == Join(dest, records)
    case CopyOozieLogs(dest) => IsUnder(p, dest, b.oozieLogs)
    case CopyYarnLogs(dest) => IsUnder(p, dest, b.yarnLogs)
    case DeleteRecords(file) => p == file
    case WriteXml(file) => p == file
    case _ => false
  }

  /** A returning call changes exactly the files it touches: it creates them,
      unless it is the delete. */
  lemma EffectOn(c: Call, b: Behaviour, fs: set<Path>, p: Path)
    ensures !Touches(c, b, p) ==> (p in Effect(c, b, fs) <==> p in fs)
    ensures Touches(c, b, p) ==> (p in Effect(c, b, fs) <==> !c.DeleteRecords?)
  {
    match c
    case CopyOozieLogs(dest) => UnderMembership(p, dest, b.oozieLogs);
    case CopyYarnLogs(dest) => UnderMembership(p, dest, b.yarnLogs);
    case _ =>
  }

  /** A file no returning call touches is present afterwards exactly when it
      was present before. */
  lemma {:induction false} ReplayUntouched(b: Behaviour, fs: set<Path>, events: seq<Event>, p: Path)
    requires forall i :: 0 <= i < |events| && events[i].ok ==> !Touches(events[i].call, b, p)
    ensures p in Replay(b, fs, events) <==> p in fs
    decreases |events|
  {
    if events != [] {
      var fs' := if events[0].ok then Effect(events[0].call, b, fs) else fs;
      EffectOn(events[0].call, b, fs, p);
      ReplayUntouched(b, fs', events[1..], p);
    }
  }

  /** The last returning call that touches a file decides whether it is present
      afterwards: it is, unless that call deleted it. */
  lemma ReplayLastTouch(b: Behaviour, fs: set<Path>, events: seq<Event>, p: Path, k: nat)
    requires k < |events| && events[k].ok && Touches(events[k].call, b, p)
    requires forall i :: k < i < |events| && events[i].ok ==> !Touches(events[i].call, b, p)
    ensures p in Replay(b, fs, events) <==> !events[k].call.DeleteRecords?
  {
    assert events == events[..k] + [events[k]] + events[k + 1..];
    ReplayAppend(b, fs, events[..k] + [events[k]], events[k + 1..]);
    ReplayAppend(b, fs, events[..k], [events[k]]);
    var before := Replay(b, fs, events[..k]);
    assert Replay(b, before, [events[k]]) == Effect(events[k].call, b, before);
    EffectOn(events[k].call, b, before, p);
    ReplayUntouched(b, Effect(events[k].call, b, before), events[k + 1..], p);
  }

  /** Bringing a cluster up or down changes no file on the host. */
  lemma ComposeLeavesFiles(b: Behaviour, fs: set<Path>, up: Event, inner: seq<Event>, down: Event)
    requires up.call.ComposeUp? && down.call.ComposeDown?
    ensures Replay(b, fs, [up] + inner + [down]) == Replay(b, fs, inner)
  {
    assert ([up] + inner + [down])[1..] == inner + [down];
    ReplayAppend(b, fs, inner, [down]);
  }

  /** The position of each call of `perform_testing` in its fixed order; the
      docker-compose calls are outside it. */
  function Rank(c: Call): nat
  {
    match c
    case GetOozieServer => 0
    case SetupTestingEnv => 1
    case RunExamples(_) => 2
    case GetNodeManager => 3
    case CopyLogfileAndRecords(_, _, _) => 4
    case CopyOozieLogs(_) => 5
    case CopyYarnLogs(_) => 6
    case OpenRecords(_) => 7
    case LoadRecords => 8
    case DeleteRecords(_) => 9
    case GenerateReport(_, _) => 10
    case WriteXml(_) => 11
    case ComposeUp(_) => 12
    case ComposeDown(_) => 12
  }

  /** The subdirectories of a report directory that receive the Oozie and
      the Yarn logs. */
  const OozieLogsDir: string := "oozieserver"
  const YarnLogsDir: string := "nodemanager"

  /** `copy_logs`: the logfile and the records file first, then the Oozie
      logs, then the Yarn logs, each into its own place under `dest`. */
  function CopyLogsCalls(dest: Path, logfile: string, records: string): (calls: seq<Call>)
    ensures |calls| == 3 && forall i :: 0 <= i < |calls| ==> Rank(calls[i]) == 4 + i
    ensures calls[0] == CopyLogfileAndRecords(logfile, records, dest)
    ensures calls[1] == CopyOozieLogs(Join(dest, OozieLogsDir)) && calls[2] == CopyYarnLogs(Join(dest, YarnLogsDir))
  {
    [CopyLogfileAndRecords(logfile, records, dest), CopyOozieLogs(Join(dest, OozieLogsDir)),
     CopyYarnLogs(Join(dest, YarnLogsDir))]
  }

  /** Every file `copy_logs` creates lies inside `dest`. */
  lemma CopiesStayInside(dest: Path, logfile: string, records: string, b: Behaviour, p: Path)
    ensures forall i :: 0 <= i < 3 && Touches(CopyLogsCalls(dest, logfile, records)[i], b, p) ==> Inside(p, dest)
  {
    var calls := CopyLogsCalls(dest, logfile, records);
    forall i | 0 <= i < 3 && Touches(calls[i], b, p)
      ensures Inside(p, dest)
    {
      if i > 0 {
        var sub := calls[i].dest;
        assert p[..|sub|][..|dest|] == p[..|dest|];
      }
    }
  }

  /** `p` lies strictly inside the directory `dir`. */
  predicate Inside(p: Path, dir: Path)
  {
    |dir| < |p| && p[..|dir|] == dir
  }

  /** `write_report`: inside the `with` block that opened the records file,
      unpickle it, delete that same file, then render the XML report and
      write it to `dest/report_examples.xml`. */
  function WriteReportCalls(configName: string, dest: Path, records: string): (calls: seq<Call>)
    ensures |calls| == 5 && forall i :: 0 <= i < |calls| ==> Rank(calls[i]) == 7 + i
    ensures calls[0] == OpenRecords(Join(dest, records)) && calls[2] == DeleteRecords(calls[0].file)
    ensures calls[3] == GenerateReport(configName, dest) && calls[4] == WriteXml(Join(dest, ReportFile))
  {
    var recordsFile := Join(dest, records);
    [OpenRecords(recordsFile), LoadRecords, DeleteRecords(recordsFile),
     GenerateReport(configName, dest), WriteXml(Join(dest, ReportFile))]
  }

  /** The call of rank `k` that `perform_testing` makes: four calls of its
      own, then `copy_logs` and `write_report` on `reportsDir/configName`. */
  function PerformTestingCall(k: nat, reportsDir: Path, configName: string, timeout: int): (c: Call)
    requires k < 12
    ensures Rank(c) == k
  {
    var dest := Join(reportsDir, configName);
    if k < 4 then [GetOozieServer, SetupTestingEnv, RunExamples(timeout), GetNodeManager][k]
    else if k < 7 then CopyLogsCalls(dest, ExamplesLogfile, RecordsFile)[k - 4]
    else WriteReportCalls(configName, dest, RecordsFile)[k - 7]
  }

  /** `perform_testing`: twelve calls in a fixed order, the runner getting the
      timeout. */
  function PerformTestingCalls(reportsDir: Path, configName: string, timeout: int): (calls: seq<Call>)
    ensures |calls| == 12 && forall k :: 0 <= k < 12 ==> Rank(calls[k]) == k
    ensures calls[2] == RunExamples(timeout)
  {
    seq(12, k requires 0 <= k < 12 => PerformTestingCall(k, reportsDir, configName, timeout))
  }

  /** After getting the node manager, `perform_testing` is exactly `copy_logs`
      on the configuration's report directory followed by exactly
      `write_report` there: the logs and the records go to `reportsDir/configName`,
      the records file is loaded and deleted, and the report is written next
      to them. */
  lemma PerformTestingParts(reportsDir: Path, configName: string, timeout: int)
    ensures var calls := PerformTestingCalls(reportsDir, configName, timeout);
            var dest := Join(reportsDir, configName);
            && calls[..4] == [GetOozieServer, SetupTestingEnv, RunExamples(timeout), GetNodeManager]
            && calls[4..7] == CopyLogsCalls(dest, ExamplesLogfile, RecordsFile)
            && calls[7..] == WriteReportCalls(configName, dest, RecordsFile)
            && calls[4] == CopyLogfileAndRecords(ExamplesLogfile, RecordsFile, dest)
            && calls[5] == CopyOozieLogs(Join(dest, OozieLogsDir))
            && calls[6] == CopyYarnLogs(Join(dest, YarnLogsDir))
            && calls[8] == LoadRecords
            && calls[9] == DeleteRecords(Join(dest, RecordsFile))
            && calls[11] == WriteXml(Join(dest, ReportFile))
  {
  }

  /** The files of the report directory that `write_report` reads and writes
      lie outside both log subdirectories. */
  lemma OutsideLogDirs(dest: Path, name: string, rel: set<Path>)
    requires name == RecordsFile || name == ReportFile || name == ExamplesLogfile
    ensures !IsUnder(Join(dest, name), Join(dest, OozieLogsDir), rel)
    ensures !IsUnder(Join(dest, name), Join(dest, YarnLogsDir), rel)
  {
    var p := Join(dest, name);
    assert |OozieLogsDir| == 11 && |YarnLogsDir| == 11;
    assert |ExamplesLogfile| == 18 && |ReportFile| == 19 && |RecordsFile| == 21;
    assert p[|dest|] == name;
    assert Join(dest, OozieLogsDir)[|dest|] == OozieLogsDir;
    assert Join(dest, YarnLogsDir)[|dest|] == YarnLogsDir;
    if |Join(dest, OozieLogsDir)| <= |p| {
      assert p[..|dest| + 1][|dest|] == name;
    }
  }

  /** The result of running straight-line code: the trace, the files, and
      whether it ran to the end (`false` when a call raised). */
  datatype Run = Run(trace: seq<Event>, fs: set<Path>, completed: bool)

  /** Runs calls in order until one raises; the raising call ends the trace. */
  function RunCalls(calls: seq<Call>, b: Behaviour, fs: set<Path>): (r: Run)
    ensures |r.trace| <= |calls|
    ensures forall i :: 0 <= i < |r.trace| ==> r.trace[i] == Event(calls[i], !b.raises(calls[i]))
    ensures forall i :: 0 <= i < |r.trace| - 1 ==> r.trace[i].ok
    ensures r.completed <==> |r.trace| == |calls| && forall i :: 0 <= i < |r.trace| ==> r.trace[i].ok
    ensures !r.completed ==> |r.trace| > 0 && !r.trace[|r.trace| - 1].ok
    decreases |calls|
  {
    if calls == [] then Run([], fs, true)
    else if b.raises(calls[0]) then Run([Event(calls[0], false)], fs, false)
    else
      var rest := RunCalls(calls[1..], b, Effect(calls[0], b, fs));
      Run([Event(calls[0], true)] + rest.trace, rest.fs, rest.completed)
  }

  /** The files after straight-line code are the effects of the calls that
      returned, in order. */
  lemma {:induction false} RunCallsFiles(calls: seq<Call>, b: Behaviour, fs: set<Path>)
    ensures var r := RunCalls(calls, b, fs); r.fs == Replay(b, fs, r.trace)
    decreases |calls|
  {
    if calls != [] && !b.raises(calls[0]) {
      var rest := RunCalls(calls[1..], b, Effect(calls[0], b, fs));
      RunCallsFiles(calls[1..], b, Effect(calls[0], b, fs));
      assert ([Event(calls[0], true)] + rest.trace)[1..] == rest.trace;
    }
  }

  /** The outcome of one session: the exit code it returns, or the exception
      `docker_compose_down` raised in the `finally` clause, which escapes. */
  datatype Outcome = Finished(code: int) | TeardownRaised

  datatype Session = Session(trace: seq<Event>, fs: set<Path>, outcome: Outcome)

  /** A try block that brings the cluster of `configDir` up and then makes
      `calls`, with a handler that turns any exception into exit code 2 and
      `down` in the `finally` clause. */
  function UpTryDown(configDir: Path, calls: seq<Call>, b: Behaviour, fs: set<Path>): (s: Session)
    ensures |s.trace| >= 2
    ensures s.trace[0] == Event(ComposeUp(configDir), !b.raises(ComposeUp(configDir)))
    ensures s.trace[|s.trace| - 1] == Event(ComposeDown(configDir), !b.raises(ComposeDown(configDir)))
    ensures s.outcome.TeardownRaised? <==> b.raises(ComposeDown(configDir))
  {
    var up := Event(ComposeUp(configDir), !b.raises(ComposeUp(configDir)));
    var down := Event(ComposeDown(configDir), !b.raises(ComposeDown(configDir)));
    var run := if up.ok then RunCalls(calls, b, fs) else Run([], fs, false);
    var exitCode := if run.completed then b.runnerExit else 2;
    Session([up] + run.trace + [down], run.fs, if down.ok then Finished(exitCode) else TeardownRaised)
  }

  /** `start_cluster_and_perform_testing`: `up` and `perform_testing` inside a
      try block whose handler turns any exception into exit code 2, with `down`
      in the `finally` clause. */
  function StartClusterAndPerformTesting(reportsDir: Path, configDir: Path, timeout: int,
                                         b: Behaviour, fs: set<Path>): (s: Session)
    ensures |s.trace| >= 2
    ensures s.trace[0] == Event(ComposeUp(configDir), !b.raises(ComposeUp(configDir)))
    ensures s.trace[|s.trace| - 1] == Event(ComposeDown(configDir), !b.raises(ComposeDown(configDir)))
    ensures s.outcome.TeardownRaised? <==> b.raises(ComposeDown(configDir))
  {
    UpTryDown(configDir, PerformTestingCalls(reportsDir, BaseName(configDir), timeout), b, fs)
  }

  /** Some call before the teardown raised: the exception the handler caught. */
  ghost predicate ErrorCaught(s: Session)
  {
    exists i :: 0 <= i < |s.trace| - 1 && !s.trace[i].ok
  }

  /** Some call of `calls` raises. */
  predicate AnyRaises(calls: seq<Call>, b: Behaviour)
  {
    exists k :: 0 <= k < |calls| && b.raises(calls[k])
  }

  /** The session outcome stated from the behaviour alone: an escaping teardown
      exception, else 2 when `up` or any call of `perform_testing` raises, else
      the runner's exit code. */
  function ExpectedOutcome(reportsDir: Path, configDir: Path, timeout: int, b: Behaviour): Outcome
  {
    if b.raises(ComposeDown(configDir)) then TeardownRaised
    else if b.raises(ComposeUp(configDir)) || AnyRaises(PerformTestingCalls(reportsDir, BaseName(configDir), timeout), b) then Finished(2)
    else Finished(b.runnerExit)
  }

  /** The calls between `up` and `down` are a prefix of `perform_testing`'s
      calls, each reached only once `up` and every earlier call returned; the
      call just before `down` raised exactly when an exception was caught, and
      otherwise every call of `perform_testing` ran. */
  lemma SessionSteps(reportsDir: Path, configDir: Path, timeout: int, b: Behaviour, fs: set<Path>)
    ensures var s := StartClusterAndPerformTesting(reportsDir, configDir, timeout, b, fs);
            var calls := PerformTestingCalls(reportsDir, BaseName(configDir), timeout);
            && 2 <= |s.trace| <= |calls| + 2
            && (|s.trace| > 2 ==> s.trace[0].ok)
            && (forall i :: 1 <= i < |s.trace| - 1 ==> s.trace[i] == Event(calls[i - 1], !b.raises(calls[i - 1])))
            && (forall i :: 0 <= i < |s.trace| - 2 ==> s.trace[i].ok)
            && (ErrorCaught(s) <==> !s.trace[|s.trace| - 2].ok)
            && (!ErrorCaught(s) ==> |s.trace| == |calls| + 2)
            && s.fs == Replay(b, fs, s.trace)
  {
    UpTryDownSteps(configDir, PerformTestingCalls(reportsDir, BaseName(configDir), timeout), b, fs);
  }

  /** `SessionSteps` for any calls made inside the try block. */
  lemma UpTryDownSteps(configDir: Path, calls: seq<Call>, b: Behaviour, fs: set<Path>)
    ensures var s := UpTryDown(configDir, calls, b, fs);
            && 2 <= |s.trace| <= |calls| + 2
            && (|s.trace| > 2 ==> s.trace[0].ok)
            && (forall i :: 1 <= i < |s.trace| - 1 ==> s.trace[i] == Event(calls[i - 1], !b.raises(calls[i - 1])))
            && (forall i :: 0 <= i < |s.trace| - 2 ==> s.trace[i].ok)
            && (ErrorCaught(s) <==> !s.trace[|s.trace| - 2].ok)
            && (!ErrorCaught(s) ==> |s.trace| == |calls| + 2)
            && s.fs == Replay(b, fs, s.trace)
  {
    var s := UpTryDown(configDir, calls, b, fs);
    var up := Event(ComposeUp(configDir), !b.raises(ComposeUp(configDir)));
    var down := Event(ComposeDown(configDir), !b.raises(ComposeDown(configDir)));
    UpTryDownFiles(configDir, calls, b, fs);
    if up.ok {
      var run := RunCalls(calls, b, fs);
      assert s.trace == [up] + run.trace + [down];
      if !run.completed {
        assert !s.trace[|s.trace| - 2].ok;
        assert ErrorCaught(s);
      } else {
        assert forall i :: 0 <= i < |s.trace| - 1 ==> s.trace[i].ok;
      }
    } else {
      assert s.trace == [up, down];
      assert !s.trace[0].ok;
    }
  }

  /** The files after a session are the effects of the calls that returned. */
  lemma UpTryDownFiles(configDir: Path, calls: seq<Call>, b: Behaviour, fs: set<Path>)
    ensures var s := UpTryDown(configDir, calls, b, fs); s.fs == Replay(b, fs, s.trace)
  {
    var up := Event(ComposeUp(configDir), !b.raises(ComposeUp(configDir)));
    var down := Event(ComposeDown(configDir), !b.raises(ComposeDown(configDir)));
    var run := if up.ok then RunCalls(calls, b, fs) else Run([], fs, false);
    RunCallsFiles(calls, b, fs);
    ComposeLeavesFiles(b, fs, up, run.trace, down);
  }

  // The properties of a session below come in pairs. A lemma whose name starts
  // with `Shaped` is the proof layer: it states the property of any session of
  // the shape `Shaped` describes. The lemma without the prefix states the same
  // property of `StartClusterAndPerformTesting`, via `StartIsShaped`.

  /** A session trace described by position: `up` first and `down` last, the
      calls of `perform_testing` in between one past their ranks, every call
      but the last inner one returned, all twelve ran when nothing was caught,
      the calls that touch files name the report directory, and the files are
      the effects of the calls that returned. */
  ghost predicate Shaped(s: Session, reportsDir: Path, configDir: Path, timeout: int, b: Behaviour, fs: set<Path>)
  {
    var t := s.trace;
    var dest := ReportDir(reportsDir, configDir);
    && 2 <= |t| <= 14
    && t[0] == Event(ComposeUp(configDir), !b.raises(ComposeUp(configDir)))
    && t[|t| - 1] == Event(ComposeDown(configDir), !b.raises(ComposeDown(configDir)))
    && (forall i :: 0 < i < |t| - 1 ==> Rank(t[i].call) == i - 1)
    && (forall i :: 0 <= i < |t| - 2 ==> t[i].ok)
    && (ErrorCaught(s) <==> !t[|t| - 2].ok)
    && (!ErrorCaught(s) ==> |t| == 14)
    && (3 < |t| - 1 ==> t[3].call == RunExamples(timeout))
    && (5 < |t| - 1 ==> t[5].call == CopyLogfileAndRecords(ExamplesLogfile, RecordsFile, dest))
    && (6 < |t| - 1 ==> t[6].call == CopyOozieLogs(Join(dest, OozieLogsDir)))
    && (7 < |t| - 1 ==> t[7].call == CopyYarnLogs(Join(dest, YarnLogsDir)))
    && (10 < |t| - 1 ==> t[10].call == DeleteRecords(Join(dest, RecordsFile)))
    && (12 < |t| - 1 ==> t[12].call == WriteXml(Join(dest, ReportFile)))
    && s.fs == Replay(b, fs, t)
  }

  /** Every session has that shape. */
  lemma StartIsShaped(reportsDir: Path, configDir: Path, timeout: int, b: Behaviour, fs: set<Path>)
    ensures Shaped(StartClusterAndPerformTesting(reportsDir, configDir, timeout, b, fs), reportsDir, configDir, timeout, b, fs)
  {
    SessionSteps(reportsDir, configDir, timeout, b, fs);
    StepsAreShaped(StartClusterAndPerformTesting(reportsDir, configDir, timeout, b, fs),
                   PerformTestingCalls(reportsDir, BaseName(configDir), timeout), reportsDir, configDir, timeout, b, fs);
  }

  /** A trace of `up`, a prefix of the ranked calls of `perform_testing`, then
      `down`, has the shape. */
  lemma StepsAreShaped(s: Session, calls: seq<Call>, reportsDir: Path, configDir: Path, timeout: int, b: Behaviour, fs: set<Path>)
    requires var dest := ReportDir(reportsDir, configDir);
             && |calls| == 12
             && (forall k :: 0 <= k < 12 ==> Rank(calls[k]) == k)
             && calls[2] == RunExamples(timeout)
             && calls[4] == CopyLogfileAndRecords(ExamplesLogfile, RecordsFile, dest)
             && calls[5] == CopyOozieLogs(Join(dest, OozieLogsDir))
             && calls[6] == CopyYarnLogs(Join(dest, YarnLogsDir))
             && calls[9] == DeleteRecords(Join(dest, RecordsFile))
             && calls[11] == WriteXml(Join(dest, ReportFile))
    requires 2 <= |s.trace| <= |calls| + 2
    requires s.trace[0] == Event(ComposeUp(configDir), !b.raises(ComposeUp(configDir)))
    requires s.trace[|s.trace| - 1] == Event(ComposeDown(configDir), !b.raises(ComposeDown(configDir)))
    requires forall i :: 1 <= i < |s.trace| - 1 ==> s.trace[i] == Event(calls[i - 1], !b.raises(calls[i - 1]))
    requires forall i :: 0 <= i < |s.trace| - 2 ==> s.trace[i].ok
    requires ErrorCaught(s) <==> !s.trace[|s.trace| - 2].ok
    requires !ErrorCaught(s) ==> |s.trace| == |calls| + 2
    requires s.fs == Replay(b, fs, s.trace)
    ensures Shaped(s, reportsDir, configDir, timeout, b, fs)
  {
    forall i | 0 < i < |s.trace| - 1
      ensures Rank(s.trace[i].call) == i - 1
    {
      assert s.trace[i].call == calls[i - 1];
    }
  }

  /** `down` runs exactly once per session, as its last call, and `up` exactly
      once, as its first, whichever call raised. */
  lemma TeardownExactlyOnce(reportsDir: Path, configDir: Path, timeout: int, b: Behaviour, fs: set<Path>)
    ensures var s := StartClusterAndPerformTesting(reportsDir, configDir, timeout, b, fs);
            && s.trace[|s.trace| - 1].call == ComposeDown(configDir)
            && s.trace[0].call == ComposeUp(configDir)
            && (forall i :: 0 <= i < |s.trace| ==> (s.trace[i].call.ComposeDown? <==> i == |s.trace| - 1))
            && (forall i :: 0 <= i < |s.trace| ==> (s.trace[i].call.ComposeUp? <==> i == 0))
  {
    StartIsShaped(reportsDir, configDir, timeout, b, fs);
    ShapedTeardownOnce(StartClusterAndPerformTesting(reportsDir, configDir, timeout, b, fs), reportsDir, configDir, timeout, b, fs);
  }

  lemma ShapedTeardownOnce(s: Session, reportsDir: Path, configDir: Path, timeout: int, b: Behaviour, fs: set<Path>)
    requires Shaped(s, reportsDir, configDir, timeout, b, fs)
    ensures forall i :: 0 <= i < |s.trace| ==> (s.trace[i].call.ComposeDown? <==> i == |s.trace| - 1)
    ensures forall i :: 0 <= i < |s.trace| ==> (s.trace[i].call.ComposeUp? <==> i == 0)
  {
    forall i | 0 < i < |s.trace| - 1
      ensures !s.trace[i].call.ComposeDown? && !s.trace[i].call.ComposeUp?
    {
      assert Rank(s.trace[i].call) < 12;
    }
  }

  /** A trace whose inner calls sit one past their ranks, between two
      docker-compose calls, holds each call that matters at one position. */
  lemma RankedPositions(trace: seq<Event>)
    requires |trace| >= 2 && Rank(trace[0].call) == 12 && Rank(trace[|trace| - 1].call) == 12
    requires forall i :: 0 < i < |trace| - 1 ==> Rank(trace[i].call) == i - 1
    ensures forall i :: 0 <= i < |trace| && trace[i].call.RunExamples? ==> i == 3
    ensures forall i :: 0 <= i < |trace| && trace[i].call.CopyLogfileAndRecords? ==> i == 5
    ensures forall i :: 0 <= i < |trace| && trace[i].call.CopyOozieLogs? ==> i == 6
    ensures forall i :: 0 <= i < |trace| && trace[i].call.CopyYarnLogs? ==> i == 7
    ensures forall i :: 0 <= i < |trace| && trace[i].call.LoadRecords? ==> i == 9
    ensures forall i :: 0 <= i < |trace| && trace[i].call.DeleteRecords? ==> i == 10
    ensures forall i :: 0 <= i < |trace| && trace[i].call.GenerateReport? ==> i == 11
    ensures forall i :: 0 <= i < |trace| && trace[i].call.WriteXml? ==> i == 12
  {
    forall i | 0 <= i < |trace|
      ensures trace[i].call.RunExamples? ==> i == 3
      ensures trace[i].call.CopyLogfileAndRecords? ==> i == 5
      ensures trace[i].call.CopyOozieLogs? ==> i == 6
      ensures trace[i].call.CopyYarnLogs? ==> i == 7
      ensures trace[i].call.LoadRecords? ==> i == 9
      ensures trace[i].call.DeleteRecords? ==> i == 10
      ensures trace[i].call.GenerateReport? ==> i == 11
      ensures trace[i].call.WriteXml? ==> i == 12
    {
      if 0 < i < |trace| - 1 {
        assert Rank(trace[i].call) == i - 1;
      }
    }
  }

  /** The outcome is 2 when an exception was caught and the runner's exit code
      otherwise, and it depends on this session's behaviour alone, not on the
      files left by earlier sessions. */
  lemma SessionOutcome(reportsDir: Path, configDir: Path, timeout: int, b: Behaviour, fs: set<Path>)
    ensures var s := StartClusterAndPerformTesting(reportsDir, configDir, timeout, b, fs);
            && s.outcome == ExpectedOutcome(reportsDir, configDir, timeout, b)
            && (s.outcome.Finished? ==> s.outcome.code == if ErrorCaught(s) then 2 else b.runnerExit)
            && (s.outcome.Finished? && (b.runnerExit == 0 || b.runnerExit == 1) ==>
                  (s.outcome.code == 2 <==> ErrorCaught(s)))
  {
    var s := StartClusterAndPerformTesting(reportsDir, configDir, timeout, b, fs);
    var calls := PerformTestingCalls(reportsDir, BaseName(configDir), timeout);
    SessionSteps(reportsDir, configDir, timeout, b, fs);
    if !b.raises(ComposeUp(configDir)) {
      var run := RunCalls(calls, b, fs);
      if AnyRaises(calls, b) {
        assert !run.completed;
      } else {
        assert run.completed;
      }
    }
  }

  /** The outcome of a session, from its behaviour alone. */
  lemma StartOutcome(reportsDir: Path, configDir: Path, timeout: int, b: Behaviour, fs: set<Path>)
    ensures StartClusterAndPerformTesting(reportsDir, configDir, timeout, b, fs).outcome == ExpectedOutcome(reportsDir, configDir, timeout, b)
  {
    SessionOutcome(reportsDir, configDir, timeout, b, fs);
  }

  /** Every call of the session that writes the XML report writes it to
      `<reports>/<configuration name>/report_examples.xml`; the report is
      written exactly when no exception was caught, so a session whose `up`
      raised writes none. */
  lemma ReportWrittenIffNoError(reportsDir: Path, configDir: Path, timeout: int, b: Behaviour, fs: set<Path>)
    ensures var s := StartClusterAndPerformTesting(reportsDir, configDir, timeout, b, fs);
            && (forall i :: 0 <= i < |s.trace| && s.trace[i].call.WriteXml? ==>
                  s.trace[i].call.file == ReportPath(reportsDir, configDir))
            && (Event(WriteXml(ReportPath(reportsDir, configDir)), true) in s.trace <==> !ErrorCaught(s))
            && (b.raises(ComposeUp(configDir)) ==> |s.trace| == 2)
  {
    StartIsShaped(reportsDir, configDir, timeout, b, fs);
    ShapedReportWritten(StartClusterAndPerformTesting(reportsDir, configDir, timeout, b, fs), reportsDir, configDir, timeout, b, fs);
  }

  lemma ShapedReportWritten(s: Session, reportsDir: Path, configDir: Path, timeout: int, b: Behaviour, fs: set<Path>)
    requires Shaped(s, reportsDir, configDir, timeout, b, fs)
    ensures forall i :: 0 <= i < |s.trace| && s.trace[i].call.WriteXml? ==>
              s.trace[i].call.file == ReportPath(reportsDir, configDir)
    ensures Event(WriteXml(ReportPath(reportsDir, configDir)), true) in s.trace <==> !ErrorCaught(s)
    ensures b.raises(ComposeUp(configDir)) ==> |s.trace| == 2
  {
    RankedPositions(s.trace);
    if !ErrorCaught(s) {
      assert s.trace[12] == Event(WriteXml(ReportPath(reportsDir, configDir)), true);
    }
  }

  /** Inside `write_report` the records file is deleted right after it was
      loaded and right before the report is rendered, and the rendering comes
      right before the write. */
  lemma RecordsDeletedBetweenLoadAndReport(reportsDir: Path, configDir: Path, timeout: int, b: Behaviour, fs: set<Path>)
    ensures var s := StartClusterAndPerformTesting(reportsDir, configDir, timeout, b, fs);
            var records := RecordsPath(reportsDir, configDir);
            && (forall j :: 0 <= j < |s.trace| && s.trace[j].call.DeleteRecords? ==>
                  1 <= j && s.trace[j].call.file == records && s.trace[j - 1] == Event(LoadRecords, true))
            && (forall j :: 0 <= j < |s.trace| && s.trace[j].call.GenerateReport? ==>
                  1 <= j && s.trace[j - 1] == Event(DeleteRecords(records), true))
            && (forall j :: 0 <= j < |s.trace| && s.trace[j].call.WriteXml? ==>
                  1 <= j && s.trace[j - 1].call.GenerateReport? && s.trace[j - 1].ok)
  {
    StartIsShaped(reportsDir, configDir, timeout, b, fs);
    ShapedRecordsDeleted(StartClusterAndPerformTesting(reportsDir, configDir, timeout, b, fs), reportsDir, configDir, timeout, b, fs);
  }

  lemma ShapedRecordsDeleted(s: Session, reportsDir: Path, configDir: Path, timeout: int, b: Behaviour, fs: set<Path>)
    requires Shaped(s, reportsDir, configDir, timeout, b, fs)
    ensures forall j :: 0 <= j < |s.trace| && s.trace[j].call.DeleteRecords? ==>
              1 <= j && s.trace[j].call.file == RecordsPath(reportsDir, configDir) && s.trace[j - 1] == Event(LoadRecords, true)
    ensures forall j :: 0 <= j < |s.trace| && s.trace[j].call.GenerateReport? ==>
              1 <= j && s.trace[j - 1] == Event(DeleteRecords(RecordsPath(reportsDir, configDir)), true)
    ensures forall j :: 0 <= j < |s.trace| && s.trace[j].call.WriteXml? ==>
              1 <= j && s.trace[j - 1].call.GenerateReport? && s.trace[j - 1].ok
  {
    RankedPositions(s.trace);
    forall j | 0 <= j < |s.trace| && s.trace[j].call.DeleteRecords?
      ensures 1 <= j && s.trace[j].call.file == RecordsPath(reportsDir, configDir)
      ensures s.trace[j - 1] == Event(LoadRecords, true)
    {
      assert j == 10;
      assert Rank(s.trace[9].call) == 8;
    }
    forall j | 0 <= j < |s.trace| && s.trace[j].call.GenerateReport?
      ensures 1 <= j && s.trace[j - 1] == Event(DeleteRecords(RecordsPath(reportsDir, configDir)), true)
    {
      assert j == 11;
    }
    forall j | 0 <= j < |s.trace| && s.trace[j].call.WriteXml?
      ensures 1 <= j && s.trace[j - 1].call.GenerateReport? && s.trace[j - 1].ok
    {
      assert j == 12;
      assert Rank(s.trace[11].call) == 10;
    }
  }

  /** The records file is copied to the host before it is opened: when loading
      it raises, the file stays in place. */
  lemma LoadFailureKeepsRecords(reportsDir: Path, configDir: Path, timeout: int, b: Behaviour, fs: set<Path>)
    ensures var s := StartClusterAndPerformTesting(reportsDir, configDir, timeout, b, fs);
            Event(LoadRecords, false) in s.trace ==> RecordsPath(reportsDir, configDir) in s.fs
  {
    StartIsShaped(reportsDir, configDir, timeout, b, fs);
    ShapedLoadFailure(StartClusterAndPerformTesting(reportsDir, configDir, timeout, b, fs), reportsDir, configDir, timeout, b, fs);
  }

  lemma ShapedLoadFailure(s: Session, reportsDir: Path, configDir: Path, timeout: int, b: Behaviour, fs: set<Path>)
    requires Shaped(s, reportsDir, configDir, timeout, b, fs)
    ensures Event(LoadRecords, false) in s.trace ==> RecordsPath(reportsDir, configDir) in s.fs
  {
    var records := RecordsPath(reportsDir, configDir);
    RankedPositions(s.trace);
    if Event(LoadRecords, false) in s.trace {
      var j :| 0 <= j < |s.trace| && s.trace[j] == Event(LoadRecords, false);
      assert j == 9;
      assert |s.trace| == 11;
      OutsideLogDirs(ReportDir(reportsDir, configDir), RecordsFile, b.oozieLogs);
      OutsideLogDirs(ReportDir(reportsDir, configDir), RecordsFile, b.yarnLogs);
      ReplayLastTouch(b, fs, s.trace, records, 5);
    }
  }

  /** Once the report is being rendered the records file is gone, so a
      rendering or writing failure leaves neither the records nor a report. */
  lemma RecordsGoneOnceRendering(reportsDir: Path, configDir: Path, timeout: int, b: Behaviour, fs: set<Path>)
    ensures var s := StartClusterAndPerformTesting(reportsDir, configDir, timeout, b, fs);
            (exists j :: 0 <= j < |s.trace| && s.trace[j].call.GenerateReport?) ==>
              RecordsPath(reportsDir, configDir) !in s.fs
  {
    StartIsShaped(reportsDir, configDir, timeout, b, fs);
    ShapedRecordsGone(StartClusterAndPerformTesting(reportsDir, configDir, timeout, b, fs), reportsDir, configDir, timeout, b, fs);
  }

  lemma ShapedRecordsGone(s: Session, reportsDir: Path, configDir: Path, timeout: int, b: Behaviour, fs: set<Path>)
    requires Shaped(s, reportsDir, configDir, timeout, b, fs)
    ensures (exists j :: 0 <= j < |s.trace| && s.trace[j].call.GenerateReport?) ==>
              RecordsPath(reportsDir, configDir) !in s.fs
  {
    var records := RecordsPath(reportsDir, configDir);
    RankedPositions(s.trace);
    if exists j :: 0 <= j < |s.trace| && s.trace[j].call.GenerateReport? {
      var j :| 0 <= j < |s.trace| && s.trace[j].call.GenerateReport?;
      assert j == 11;
      assert s.trace[10] == Event(DeleteRecords(records), true);
      forall i | 10 < i < |s.trace| && s.trace[i].ok
        ensures !Touches(s.trace[i].call, b, records)
      {
        if i == 12 && i < |s.trace| - 1 {
          FileNamesDistinct(ReportDir(reportsDir, configDir));
        }
      }
      ReplayLastTouch(b, fs, s.trace, records, 10);
    }
  }

  /** The report file exists after the session exactly when the session wrote
      it or it was already there. */
  lemma ReportFilePresence(reportsDir: Path, configDir: Path, timeout: int, b: Behaviour, fs: set<Path>)
    ensures var s := StartClusterAndPerformTesting(reportsDir, configDir, timeout, b, fs);
            ReportPath(reportsDir, configDir) in s.fs <==> !ErrorCaught(s) || ReportPath(reportsDir, configDir) in fs
  {
    StartIsShaped(reportsDir, configDir, timeout, b, fs);
    ShapedReportPresence(StartClusterAndPerformTesting(reportsDir, configDir, timeout, b, fs), reportsDir, configDir, timeout, b, fs);
  }

  lemma ShapedReportPresence(s: Session, reportsDir: Path, configDir: Path, timeout: int, b: Behaviour, fs: set<Path>)
    requires Shaped(s, reportsDir, configDir, timeout, b, fs)
    ensures ReportPath(reportsDir, configDir) in s.fs <==> !ErrorCaught(s) || ReportPath(reportsDir, configDir) in fs
  {
    var report := ReportPath(reportsDir, configDir);
    RankedPositions(s.trace);
    ShapedReportWritten(s, reportsDir, configDir, timeout, b, fs);
    FileNamesDistinct(ReportDir(reportsDir, configDir));
    OutsideLogDirs(ReportDir(reportsDir, configDir), ReportFile, b.oozieLogs);
    OutsideLogDirs(ReportDir(reportsDir, configDir), ReportFile, b.yarnLogs);
    if ErrorCaught(s) {
      ReplayUntouched(b, fs, s.trace, report);
    } else {
      ReplayLastTouch(b, fs, s.trace, report, 12);
    }
  }

  /** Once the Oozie log copy returned, every Oozie log of the container is
      on the host afterwards under `<report dir>/oozieserver`, and likewise
      the Yarn logs under `<report dir>/nodemanager`: no later call removes
      them. */
  lemma LogsCopied(reportsDir: Path, configDir: Path, timeout: int, b: Behaviour, fs: set<Path>)
    ensures var s := StartClusterAndPerformTesting(reportsDir, configDir, timeout, b, fs);
            var dest := ReportDir(reportsDir, configDir);
            && (Event(CopyOozieLogs(Join(dest, OozieLogsDir)), true) in s.trace ==>
                  Under(Join(dest, OozieLogsDir), b.oozieLogs) <= s.fs)
            && (Event(CopyYarnLogs(Join(dest, YarnLogsDir)), true) in s.trace ==>
                  Under(Join(dest, YarnLogsDir), b.yarnLogs) <= s.fs)
  {
    StartIsShaped(reportsDir, configDir, timeout, b, fs);
    ShapedLogsCopied(StartClusterAndPerformTesting(reportsDir, configDir, timeout, b, fs), reportsDir, configDir, timeout, b, fs);
  }

  lemma ShapedLogsCopied(s: Session, reportsDir: Path, configDir: Path, timeout: int, b: Behaviour, fs: set<Path>)
    requires Shaped(s, reportsDir, configDir, timeout, b, fs)
    ensures var dest := ReportDir(reportsDir, configDir);
            && (Event(CopyOozieLogs(Join(dest, OozieLogsDir)), true) in s.trace ==>
                  Under(Join(dest, OozieLogsDir), b.oozieLogs) <= s.fs)
            && (Event(CopyYarnLogs(Join(dest, YarnLogsDir)), true) in s.trace ==>
                  Under(Join(dest, YarnLogsDir), b.yarnLogs) <= s.fs)
  {
    var dest := ReportDir(reportsDir, configDir);
    RankedPositions(s.trace);
    if Event(CopyOozieLogs(Join(dest, OozieLogsDir)), true) in s.trace {
      assert s.trace[6] == Event(CopyOozieLogs(Join(dest, OozieLogsDir)), true);
      forall p | p in Under(Join(dest, OozieLogsDir), b.oozieLogs)
        ensures p in s.fs
      {
        LogSurvives(s, reportsDir, configDir, timeout, b, fs, p, 6);
      }
    }
    if Event(CopyYarnLogs(Join(dest, YarnLogsDir)), true) in s.trace {
      assert s.trace[7] == Event(CopyYarnLogs(Join(dest, YarnLogsDir)), true);
      forall p | p in Under(Join(dest, YarnLogsDir), b.yarnLogs)
        ensures p in s.fs
      {
        LogSurvives(s, reportsDir, configDir, timeout, b, fs, p, 7);
      }
    }
  }

  /** A log file brought over by the copy at position `k` (6 for Oozie, 7 for
      Yarn) is not touched by any later call. */
  lemma LogSurvives(s: Session, reportsDir: Path, configDir: Path, timeout: int, b: Behaviour, fs: set<Path>, p: Path, k: nat)
    requires Shaped(s, reportsDir, configDir, timeout, b, fs)
    requires var dest := ReportDir(reportsDir, configDir);
             || (k == 6 && k < |s.trace| - 1 && s.trace[k].ok && p in Under(Join(dest, OozieLogsDir), b.oozieLogs))
             || (k == 7 && k < |s.trace| - 1 && s.trace[k].ok && p in Under(Join(dest, YarnLogsDir), b.yarnLogs))
    ensures p in s.fs
  {
    var dest := ReportDir(reportsDir, configDir);
    var sub := s.trace[k].call.dest;
    UnderMembership(p, sub, if k == 6 then b.oozieLogs else b.yarnLogs);
    assert p[|dest|] == sub[|dest|] by {
      assert p[..|sub|][|dest|] == p[|dest|];
    }
    assert |OozieLogsDir| == 11 && |YarnLogsDir| == 11 && |RecordsFile| == 21 && |ReportFile| == 19;
    assert OozieLogsDir[0] != YarnLogsDir[0];
    RankedPositions(s.trace);
    forall i | k < i < |s.trace| && s.trace[i].ok
      ensures !Touches(s.trace[i].call, b, p)
    {
      if i == 10 && i < |s.trace| - 1 {
        assert Join(dest, RecordsFile)[|dest|] == RecordsFile;
      } else if i == 12 && i < |s.trace| - 1 {
        assert Join(dest, ReportFile)[|dest|] == ReportFile;
      }
    }
    ReplayLastTouch(b, fs, s.trace, p, k);
  }

  /** The example runner is called with the session's timeout. */
  lemma RunnerGetsTimeout(reportsDir: Path, configDir: Path, timeout: int, b: Behaviour, fs: set<Path>)
    ensures var s := StartClusterAndPerformTesting(reportsDir, configDir, timeout, b, fs);
            forall i :: 0 <= i < |s.trace| && s.trace[i].call.RunExamples? ==> s.trace[i].call.timeout == timeout
  {
    var s := StartClusterAndPerformTesting(reportsDir, configDir, timeout, b, fs);
    StartIsShaped(reportsDir, configDir, timeout, b, fs);
    RankedPositions(s.trace);
  }

  /** A session creates or removes files only inside its own configuration's
      report directory: every other file is present after it exactly when it
      was present before. */
  lemma OtherFilesUntouched(reportsDir: Path, configDir: Path, timeout: int, b: Behaviour, fs: set<Path>, p: Path)
    requires !Inside(p, ReportDir(reportsDir, configDir))
    ensures var s := StartClusterAndPerformTesting(reportsDir, configDir, timeout, b, fs);
            p in s.fs <==> p in fs
  {
    StartIsShaped(reportsDir, configDir, timeout, b, fs);
    ShapedOtherFiles(StartClusterAndPerformTesting(reportsDir, configDir, timeout, b, fs), reportsDir, configDir, timeout, b, fs, p);
  }

  lemma ShapedOtherFiles(s: Session, reportsDir: Path, configDir: Path, timeout: int, b: Behaviour, fs: set<Path>, p: Path)
    requires Shaped(s, reportsDir, configDir, timeout, b, fs)
    requires !Inside(p, ReportDir(reportsDir, configDir))
    ensures p in s.fs <==> p in fs
  {
    var dest := ReportDir(reportsDir, configDir);
    RankedPositions(s.trace);
    ReplayUntouched(b, fs, s.trace, p);
  }
}

=== FILE: orchestrator.dfy ===
/** `main`: one session per build configuration directory, one after the
    other, and the exit status of the whole stage.

    The directories are the ones `dbd_build.build_configs_with_dbd` left in
    the output directory, in the order `iterdir` lists them; each comes with
    the behaviour of the outside world during its session. `map` is lazy and
    `max` consumes it, so the sessions run in that order and an exception that
    escapes a session (only `docker_compose_down` can raise one) ends `main`
    before the remaining sessions start.
 */
module Orchestrator {
  import opened ClusterSession

  datatype Option<T> = None | Some(value: T)

  /** The timeout used when none is given on the command line. */
  const DefaultTimeout: int := 180

  /** `testing/reports` */
  const ReportsDir: Path := ["testing", "reports"]

  /** `args.timeout if args.timeout is not None else 180` */
  function EffectiveTimeout(userTimeout: Option<int>): (t: int)
    ensures userTimeout.Some? ==> t == userTimeout.value
    ensures userTimeout.None? ==> t == DefaultTimeout
  {
    if userTimeout.Some? then userTimeout.value else DefaultTimeout
  }

  /** One configuration directory and how the world behaves during its session. */
  datatype ConfigRun = ConfigRun(dir: Path, behaviour: Behaviour)

  /** The sessions that ran, in order, and the files they left. */
  datatype Sweep = Sweep(sessions: seq<Session>, fs: set<Path>)

  /** Runs the sessions one at a time, in order, until one of them raises from
      its teardown. */
  function RunSessions(runs: seq<ConfigRun>, timeout: int, fs: set<Path>): (w: Sweep)
    ensures |w.sessions| <= |runs|
    ensures runs != [] ==> w.sessions != []
    ensures forall i :: 0 <= i < |w.sessions| ==>
              w.sessions[i].outcome == ExpectedOutcome(ReportsDir, runs[i].dir, timeout, runs[i].behaviour)
    ensures forall i :: 0 <= i < |w.sessions| - 1 ==> w.sessions[i].outcome.Finished?
    ensures |w.sessions| < |runs| ==> w.sessions[|w.sessions| - 1].outcome.TeardownRaised?
    decreases |runs|
  {
    if runs == [] then Sweep([], fs)
    else
      var s := StartClusterAndPerformTesting(ReportsDir, runs[0].dir, timeout, runs[0].behaviour, fs);
      StartOutcome(ReportsDir, runs[0].dir, timeout, runs[0].behaviour, fs);
      if s.outcome.TeardownRaised? then
        ConsSweep(s, Sweep([], s.fs), runs, timeout);
        Sweep([s], s.fs)
      else
        var rest := RunSessions(runs[1..], timeout, s.fs);
        ConsSweep(s, rest, runs, timeout);
        Sweep([s] + rest.sessions, rest.fs)
  }

  /** Prepending the first directory's session to a sweep of the rest keeps
      every outcome matched with its own directory, and keeps the sweep
      stopping only after a teardown that raised. */
  lemma ConsSweep(s: Session, rest: Sweep, runs: seq<ConfigRun>, timeout: int)
    requires runs != [] && |rest.sessions| < |runs|
    requires s.outcome == ExpectedOutcome(ReportsDir, runs[0].dir, timeout, runs[0].behaviour)
    requires s.outcome.TeardownRaised? ==> rest.sessions == []
    requires forall i :: 0 <= i < |rest.sessions| ==>
               rest.sessions[i].outcome == ExpectedOutcome(ReportsDir, runs[1..][i].dir, timeout, runs[1..][i].behaviour)
    requires forall i :: 0 <= i < |rest.sessions| - 1 ==> rest.sessions[i].outcome.Finished?
    requires !s.outcome.TeardownRaised? && runs[1..] != [] ==> rest.sessions != []
    requires !s.outcome.TeardownRaised? ==>
               (|rest.sessions| < |runs| - 1 ==> rest.sessions[|rest.sessions| - 1].outcome.TeardownRaised?)
    ensures var w := [s] + rest.sessions;
            && (forall i :: 0 <= i < |w| ==>
                  w[i].outcome == ExpectedOutcome(ReportsDir, runs[i].dir, timeout, runs[i].behaviour))
            && (forall i :: 0 <= i < |w| - 1 ==> w[i].outcome.Finished?)
            && (|w| < |runs| ==> w[|w| - 1].outcome.TeardownRaised?)
  {
    var w := [s] + rest.sessions;
    forall i | 1 <= i < |w|
      ensures w[i].outcome == ExpectedOutcome(ReportsDir, runs[i].dir, timeout, runs[i].behaviour)
    {
      assert w[i] == rest.sessions[i - 1] && runs[i] == runs[1..][i - 1];
    }
  }

  /** Each session that ran brought its own configuration's cluster up first
      and down last, exactly once each, and ran the examples with `timeout`. */
  lemma {:induction false} SessionsOfRuns(runs: seq<ConfigRun>, timeout: int, fs: set<Path>)
    ensures var w := RunSessions(runs, timeout, fs);
            forall i :: 0 <= i < |w.sessions| ==> SessionOf(w.sessions[i], runs[i].dir, timeout)
    decreases |runs|
  {
    if runs != [] {
      var s := StartClusterAndPerformTesting(ReportsDir, runs[0].dir, timeout, runs[0].behaviour, fs);
      StartIsSessionOf(runs[0].dir, timeout, runs[0].behaviour, fs);
      if s.outcome.TeardownRaised? {
        ConsSessionOf(s, [], runs, timeout);
      } else {
        SessionsOfRuns(runs[1..], timeout, s.fs);
        ConsSessionOf(s, RunSessions(runs[1..], timeout, s.fs).sessions, runs, timeout);
      }
    }
  }

  /** Prepending the session of the first directory to sessions of the rest. */
  lemma ConsSessionOf(s: Session, rest: seq<Session>, runs: seq<ConfigRun>, timeout: int)
    requires runs != [] && |rest| < |runs|
    requires SessionOf(s, runs[0].dir, timeout)
    requires forall i :: 0 <= i < |rest| ==> SessionOf(rest[i], runs[1..][i].dir, timeout)
    ensures forall i :: 0 <= i < |[s] + rest| ==> SessionOf(([s] + rest)[i], runs[i].dir, timeout)
  {
    forall i | 1 <= i < |[s] + rest|
      ensures SessionOf(([s] + rest)[i], runs[i].dir, timeout)
    {
      assert ([s] + rest)[i] == rest[i - 1] && runs[i] == runs[1..][i - 1];
    }
  }

  /** One session opens and closes with its own directory and passes `timeout` on. */
  lemma StartIsSessionOf(dir: Path, timeout: int, b: Behaviour, fs: set<Path>)
    ensures SessionOf(StartClusterAndPerformTesting(ReportsDir, dir, timeout, b, fs), dir, timeout)
  {
    TeardownExactlyOnce(ReportsDir, dir, timeout, b, fs);
    RunnerGetsTimeout(ReportsDir, dir, timeout, b, fs);
  }

  /** The session's trace opens with `up` and closes with `down` on `dir`, each
      exactly once, and every example run in it gets `timeout`. */
  ghost predicate SessionOf(s: Session, dir: Path, timeout: int)
  {
    && |s.trace| >= 2
    && (forall j :: 0 <= j < |s.trace| ==> (s.trace[j].call == ComposeUp(dir) <==> j == 0))
    && (forall j :: 0 <= j < |s.trace| ==> (s.trace[j].call == ComposeDown(dir) <==> j == |s.trace| - 1))
    && (forall j :: 0 <= j < |s.trace| && s.trace[j].call.RunExamples? ==> s.trace[j].call.timeout == timeout)
  }

  /** The exit codes of sessions that all finished. */
  function Codes(sessions: seq<Session>): (codes: seq<int>)
    requires forall i :: 0 <= i < |sessions| ==> sessions[i].outcome.Finished?
    ensures |codes| == |sessions|
    ensures forall i :: 0 <= i < |sessions| ==> codes[i] == sessions[i].outcome.code
  {
    seq(|sessions|, i requires 0 <= i < |sessions| => sessions[i].outcome.code)
  }

  /** `m` is a largest element of `xs`. */
  ghost predicate IsMaximum(m: int, xs: seq<int>)
  {
    m in xs && forall i :: 0 <= i < |xs| ==> xs[i] <= m
  }

  /** Python's `max` over a non-empty sequence, scanning left to right: an
      element of the sequence that no element exceeds. */
  function Max(xs: seq<int>): (m: int)
    requires xs != []
    ensures IsMaximum(m, xs)
    decreases |xs|
  {
    if |xs| == 1 then xs[0]
    else
      var front := xs[..|xs| - 1];
      var m := Max(front);
      assert xs == front + [xs[|xs| - 1]];
      if xs[|xs| - 1] > m then xs[|xs| - 1] else m
  }

  /** Why `main` ended by raising. */
  datatype MainError =
    | NoConfigurations            // `max` of an empty sequence raises ValueError
    | TeardownFailed(configDir: Path)

  /** How `main` ends: returning normally, `sys.exit(code)`, or an exception. */
  datatype Exit = Returned | SysExit(code: int) | Raised(error: MainError)

  datatype StageRun = StageRun(exit: Exit, sessions: seq<Session>, fs: set<Path>)

  /** `main` after the build: the sessions run in order until a teardown
      raises; an empty listing makes `max` raise, a teardown exception
      escapes, and otherwise `sys.exit` gets the largest outcome when it is
      nonzero. */
  function TestStage(userTimeout: Option<int>, runs: seq<ConfigRun>, fs: set<Path>): (r: StageRun)
    ensures r.exit == Raised(NoConfigurations) <==> runs == []
    ensures runs == [] ==> r.sessions == [] && r.fs == fs
    ensures runs != [] ==> 1 <= |r.sessions| <= |runs|
    ensures forall i :: 0 <= i < |r.sessions| ==>
              r.sessions[i].outcome == ExpectedOutcome(ReportsDir, runs[i].dir, EffectiveTimeout(userTimeout), runs[i].behaviour)
    ensures runs != [] && r.exit.Raised? ==>
              r.sessions[|r.sessions| - 1].outcome.TeardownRaised?
              && r.exit.error == TeardownFailed(runs[|r.sessions| - 1].dir)
    ensures !r.exit.Raised? ==>
              |r.sessions| == |runs| && forall i :: 0 <= i < |runs| ==> r.sessions[i].outcome.Finished?
    ensures r.exit.SysExit? ==> r.exit.code != 0 && IsMaximum(r.exit.code, Codes(r.sessions))
    ensures r.exit.Returned? ==> IsMaximum(0, Codes(r.sessions))
  {
    if runs == [] then StageRun(Raised(NoConfigurations), [], fs)
    else
      Conclude(runs, RunSessions(runs, EffectiveTimeout(userTimeout), fs))
  }

  /** How `main` ends once the sweep `w` over the non-empty `runs` is over:
      with the teardown exception of the last session that ran, or with
      `sys.exit` of a nonzero largest outcome, or normally when that is 0. */
  function Conclude(runs: seq<ConfigRun>, w: Sweep): (r: StageRun)
    requires 1 <= |w.sessions| <= |runs|
    requires forall i :: 0 <= i < |w.sessions| - 1 ==> w.sessions[i].outcome.Finished?
    requires |w.sessions| < |runs| ==> w.sessions[|w.sessions| - 1].outcome.TeardownRaised?
    ensures r.sessions == w.sessions && r.fs == w.fs
    ensures r.exit.Raised? <==> w.sessions[|w.sessions| - 1].outcome.TeardownRaised?
    ensures r.exit.Raised? ==> r.exit.error == TeardownFailed(runs[|w.sessions| - 1].dir)
    ensures !r.exit.Raised? ==>
              |r.sessions| == |runs| && forall i :: 0 <= i < |runs| ==> r.sessions[i].outcome.Finished?
    ensures r.exit.SysExit? ==> r.exit.code != 0 && IsMaximum(r.exit.code, Codes(r.sessions))
    ensures r.exit.Returned? ==> IsMaximum(0, Codes(r.sessions))
  {
    var last := |w.sessions| - 1;
    if w.sessions[last].outcome.TeardownRaised? then StageRun(Raised(TeardownFailed(runs[last].dir)), w.sessions, w.fs)
    else
      var m := Max(Codes(w.sessions));
      StageRun(if m != 0 then SysExit(m) else Returned, w.sessions, w.fs)
  }

  /** No teardown raises: every configuration gets its session, each outcome
      is its own session's, and `main` exits with the largest outcome when it
      is nonzero and returns normally when it is 0. */
  lemma AggregateIsMaximum(userTimeout: Option<int>, runs: seq<ConfigRun>, fs: set<Path>)
    requires runs != []
    requires forall i :: 0 <= i < |runs| ==> !runs[i].behaviour.raises(ComposeDown(runs[i].dir))
    ensures var r := TestStage(userTimeout, runs, fs);
            var timeout := EffectiveTimeout(userTimeout);
            && |r.sessions| == |runs|
            && (forall i :: 0 <= i < |runs| ==>
                  r.sessions[i].outcome == ExpectedOutcome(ReportsDir, runs[i].dir, timeout, runs[i].behaviour))
            && (forall i :: 0 <= i < |runs| ==> r.sessions[i].outcome.Finished?)
            && (r.exit.SysExit? || r.exit.Returned?)
            && (r.exit.SysExit? ==> r.exit.code != 0 && IsMaximum(r.exit.code, Codes(r.sessions)))
            && (r.exit.Returned? ==> IsMaximum(0, Codes(r.sessions)))
  {
    var w := RunSessions(runs, EffectiveTimeout(userTimeout), fs);
    AllSessionsRun(runs, EffectiveTimeout(userTimeout), fs);
  }

  /** Without a raising teardown every directory gets its session, and each
      finishes. */
  lemma AllSessionsRun(runs: seq<ConfigRun>, timeout: int, fs: set<Path>)
    requires forall i :: 0 <= i < |runs| ==> !runs[i].behaviour.raises(ComposeDown(runs[i].dir))
    ensures var w := RunSessions(runs, timeout, fs);
            |w.sessions| == |runs| && forall i :: 0 <= i < |runs| ==> w.sessions[i].outcome.Finished?
  {
  }

  /** The configuration directories have pairwise distinct names, as the
      entries of one directory listed by `iterdir` do. */
  predicate DistinctNames(runs: seq<ConfigRun>)
  {
    forall i, j :: 0 <= i < j < |runs| ==> BaseName(runs[i].dir) != BaseName(runs[j].dir)
  }

  /** One step of the sweep: the first directory's session, then the sweep of
      the rest unless that session's teardown raised. */
  lemma SweepCons(runs: seq<ConfigRun>, timeout: int, fs: set<Path>)
    requires runs != []
    ensures var s := StartClusterAndPerformTesting(ReportsDir, runs[0].dir, timeout, runs[0].behaviour, fs);
            var rest := RunSessions(runs[1..], timeout, s.fs);
            RunSessions(runs, timeout, fs)
              == if s.outcome.TeardownRaised? then Sweep([s], s.fs) else Sweep([s] + rest.sessions, rest.fs)
  {
  }

  /** The report of a directory does not lie inside the report directory of a
      directory with another name. */
  lemma ReportNotInside(a: Path, b: Path)
    requires BaseName(a) != BaseName(b)
    ensures !Inside(ReportPath(ReportsDir, a), ReportDir(ReportsDir, b))
  {
    assert ReportPath(ReportsDir, a)[|ReportsDir|] == BaseName(a);
    assert ReportDir(ReportsDir, b)[|ReportsDir|] == BaseName(b);
  }

  /** A file outside every directory's report directory is present after the
      sweep exactly when it was present before. */
  lemma {:induction false} SweepKeeps(runs: seq<ConfigRun>, timeout: int, fs: set<Path>, p: Path)
    requires forall i :: 0 <= i < |runs| ==> !Inside(p, ReportDir(ReportsDir, runs[i].dir))
    ensures p in RunSessions(runs, timeout, fs).fs <==> p in fs
    decreases |runs|
  {
    if runs != [] {
      var s := StartClusterAndPerformTesting(ReportsDir, runs[0].dir, timeout, runs[0].behaviour, fs);
      SweepCons(runs, timeout, fs);
      OtherFilesUntouched(ReportsDir, runs[0].dir, timeout, runs[0].behaviour, fs, p);
      if !s.outcome.TeardownRaised? {
        assert forall i :: 0 <= i < |runs[1..]| ==> runs[1..][i] == runs[i + 1];
        SweepKeeps(runs[1..], timeout, s.fs, p);
      }
    }
  }

  /** After the sweep, the report of every directory whose session ran exists
      exactly when that session caught no exception or the report was there
      before: an error stays inside its own session, and no other session
      adds or removes that report. */
  lemma {:induction false} SweepReports(runs: seq<ConfigRun>, timeout: int, fs: set<Path>, i: nat)
    requires DistinctNames(runs)
    requires i < |RunSessions(runs, timeout, fs).sessions|
    ensures var w := RunSessions(runs, timeout, fs);
            var report := ReportPath(ReportsDir, runs[i].dir);
            report in w.fs <==> !ErrorCaught(w.sessions[i]) || report in fs
    decreases i
  {
    if i == 0 {
      SweepFirstReport(runs, timeout, fs);
    } else {
      var s := StartClusterAndPerformTesting(ReportsDir, runs[0].dir, timeout, runs[0].behaviour, fs);
      SweepLater(runs, timeout, fs, i);
      ReportNotInside(runs[i].dir, runs[0].dir);
      OtherFilesUntouched(ReportsDir, runs[0].dir, timeout, runs[0].behaviour, fs, ReportPath(ReportsDir, runs[i].dir));
      DistinctNamesTail(runs);
      SweepReports(runs[1..], timeout, s.fs, i - 1);
    }
  }

  /** A session after the first is a session of the sweep of the rest, which
      starts from the files the first session left and ends with the sweep. */
  lemma SweepLater(runs: seq<ConfigRun>, timeout: int, fs: set<Path>, i: nat)
    requires 0 < i < |RunSessions(runs, timeout, fs).sessions|
    ensures var s := StartClusterAndPerformTesting(ReportsDir, runs[0].dir, timeout, runs[0].behaviour, fs);
            var w := RunSessions(runs, timeout, fs);
            var rest := RunSessions(runs[1..], timeout, s.fs);
            && i - 1 < |rest.sessions|
            && w.sessions[i] == rest.sessions[i - 1]
            && w.fs == rest.fs
            && runs[1..][i - 1] == runs[i]
  {
    var s := StartClusterAndPerformTesting(ReportsDir, runs[0].dir, timeout, runs[0].behaviour, fs);
    var rest := RunSessions(runs[1..], timeout, s.fs);
    SweepCons(runs, timeout, fs);
    assert !s.outcome.TeardownRaised?;
    assert RunSessions(runs, timeout, fs) == Sweep([s] + rest.sessions, rest.fs);
  }

  /** The first directory's report after the sweep is as its own session left
      it: the later sessions work in report directories of other names. */
  lemma SweepFirstReport(runs: seq<ConfigRun>, timeout: int, fs: set<Path>)
    requires DistinctNames(runs) && runs != []
    ensures var w := RunSessions(runs, timeout, fs);
            var report := ReportPath(ReportsDir, runs[0].dir);
            report in w.fs <==> !ErrorCaught(w.sessions[0]) || report in fs
  {
    var s := StartClusterAndPerformTesting(ReportsDir, runs[0].dir, timeout, runs[0].behaviour, fs);
    var report := ReportPath(ReportsDir, runs[0].dir);
    SweepCons(runs, timeout, fs);
    ReportFilePresence(ReportsDir, runs[0].dir, timeout, runs[0].behaviour, fs);
    if !s.outcome.TeardownRaised? {
      forall j | 0 <= j < |runs[1..]|
        ensures !Inside(report, ReportDir(ReportsDir, runs[1..][j].dir))
      {
        assert runs[1..][j] == runs[j + 1];
        ReportNotInside(runs[0].dir, runs[j + 1].dir);
      }
      SweepKeeps(runs[1..], timeout, s.fs, report);
    }
  }

  lemma DistinctNamesTail(runs: seq<ConfigRun>)
    requires DistinctNames(runs) && runs != []
    ensures DistinctNames(runs[1..])
  {
    forall i, j | 0 <= i < j < |runs[1..]|
      ensures BaseName(runs[1..][i].dir) != BaseName(runs[1..][j].dir)
    {
      assert runs[1..][i] == runs[i + 1] && runs[1..][j] == runs[j + 1];
    }
  }

  /** `SweepReports` for `main`: after the stage, every configuration whose
      session ran has its own `report_examples.xml` exactly when that session
      caught no exception or the report was there before. */
  lemma StageReports(userTimeout: Option<int>, runs: seq<ConfigRun>, fs: set<Path>, i: nat)
    requires DistinctNames(runs)
    requires i < |TestStage(userTimeout, runs, fs).sessions|
    ensures var r := TestStage(userTimeout, runs, fs);
            var report := ReportPath(ReportsDir, runs[i].dir);
            report in r.fs <==> !ErrorCaught(r.sessions[i]) || report in fs
  {
    SweepReports(runs, EffectiveTimeout(userTimeout), fs, i);
  }

  /** After the build, the sessions of `main` add or remove files only inside
      the configurations' report directories. */
  lemma StageKeeps(userTimeout: Option<int>, runs: seq<ConfigRun>, fs: set<Path>, p: Path)
    requires forall i :: 0 <= i < |runs| ==> !Inside(p, ReportDir(ReportsDir, runs[i].dir))
    ensures p in TestStage(userTimeout, runs, fs).fs <==> p in fs
  {
    SweepKeeps(runs, EffectiveTimeout(userTimeout), fs, p);
  }

  /** The first teardown that raises ends `main` with that exception; the
      sessions after it never start. */
  lemma TeardownFailureAborts(userTimeout: Option<int>, runs: seq<ConfigRun>, fs: set<Path>, k: nat)
    requires k < |runs| && runs[k].behaviour.raises(ComposeDown(runs[k].dir))
    requires forall i :: 0 <= i < k ==> !runs[i].behaviour.raises(ComposeDown(runs[i].dir))
    ensures var r := TestStage(userTimeout, runs, fs);
            r.exit == Raised(TeardownFailed(runs[k].dir)) && |r.sessions| == k + 1
  {
  }

  /** An empty directory listing makes `max` raise: no exit code is invented. */
  lemma NoConfigurationsRaises(userTimeout: Option<int>, fs: set<Path>)
    ensures TestStage(userTimeout, [], fs).exit == Raised(NoConfigurations)
    ensures TestStage(userTimeout, [], fs).sessions == []
  {
  }

  /** Every session that `main` starts brings its own cluster up once and down
      once, and runs the examples with the same timeout: the one given on the
      command line, or 180. */
  lemma SessionsShareTimeout(userTimeout: Option<int>, runs: seq<ConfigRun>, fs: set<Path>)
    ensures var r := TestStage(userTimeout, runs, fs);
            forall i :: 0 <= i < |r.sessions| ==>
              SessionOf(r.sessions[i], runs[i].dir, if userTimeout.Some? then userTimeout.value else 180)
  {
    SessionsOfRuns(runs, EffectiveTimeout(userTimeout), fs);
  }

  /** Two configurations: the first passes, the cluster of the second does not
      come up. `main` exits with 2; the first has its report, the second none. */
  lemma PassThenStartFailure(a: Path, b: Path)
    requires ReportDir(ReportsDir, a) != ReportDir(ReportsDir, b)
    ensures var pass := Behaviour(c => false, 0, {}, {});
            var upFails := Behaviour((c: Call) => c.ComposeUp?, 0, {}, {});
            var r := TestStage(None, [ConfigRun(a, pass), ConfigRun(b, upFails)], {});
            && r.exit == SysExit(2)
            && ReportPath(ReportsDir, a) in r.fs
            && ReportPath(ReportsDir, b) !in r.fs
  {
    var pass := Behaviour(c => false, 0, {}, {});
    var upFails := Behaviour((c: Call) => c.ComposeUp?, 0, {}, {});
    var runs := [ConfigRun(a, pass), ConfigRun(b, upFails)];
    var t := EffectiveTimeout(None);
    var sa := StartClusterAndPerformTesting(ReportsDir, a, t, pass, {});
    var sb := StartClusterAndPerformTesting(ReportsDir, b, t, upFails, sa.fs);
    PassingSessionReports(a, b, t, {});
    FailedStartKeepsFiles(b, t, sa.fs);
    assert runs[1..] == [ConfigRun(b, upFails)];
    assert runs[1..][1..] == [];
    assert RunSessions(runs[1..][1..], t, sb.fs) == Sweep([], sb.fs);
    assert RunSessions(runs[1..], t, sa.fs) == Sweep([sb], sb.fs);
    var w := RunSessions(runs, t, {});
    assert w.sessions == [sa, sb] && w.fs == sb.fs;
    assert Codes(w.sessions) == [0, 2];
    assert Max([0, 2]) == 2;
  }

  /** A session in which nothing raises and the runner returns 0 finishes
      with 0, leaves its report, and leaves the report of another
      configuration as it found it. */
  lemma PassingSessionReports(a: Path, b: Path, t: int, fs: set<Path>)
    requires ReportDir(ReportsDir, a) != ReportDir(ReportsDir, b)
    ensures var s := StartClusterAndPerformTesting(ReportsDir, a, t, Behaviour(c => false, 0, {}, {}), fs);
            && s.outcome == Finished(0)
            && ReportPath(ReportsDir, a) in s.fs
            && (ReportPath(ReportsDir, b) in s.fs <==> ReportPath(ReportsDir, b) in fs)
  {
    var pass := Behaviour(c => false, 0, {}, {});
    SessionOutcome(ReportsDir, a, t, pass, fs);
    SessionSteps(ReportsDir, a, t, pass, fs);
    ReportFilePresence(ReportsDir, a, t, pass, fs);
    var rb := ReportPath(ReportsDir, b);
    assert rb[..|rb| - 1] == ReportDir(ReportsDir, b);
    OtherFilesUntouched(ReportsDir, a, t, pass, fs, rb);
  }

  /** A session whose cluster does not come up finishes with 2 and changes
      no file. */
  lemma FailedStartKeepsFiles(b: Path, t: int, fs: set<Path>)
    ensures var s := StartClusterAndPerformTesting(ReportsDir, b, t, Behaviour((c: Call) => c.ComposeUp?, 0, {}, {}), fs);
            s.outcome == Finished(2) && s.fs == fs
  {
    var upFails := Behaviour((c: Call) => c.ComposeUp?, 0, {}, {});
    SessionOutcome(ReportsDir, b, t, upFails, fs);
    SessionSteps(ReportsDir, b, t, upFails, fs);
  }

  lemma MaxSnoc(xs: seq<int>, x: int)
    requires xs != []
    ensures Max(xs + [x]) == if x > Max(xs) then x else Max(xs)
  {
  }

  /** The tail of `main`: `max_exit_code = max(test_exit_codes)`, scanning the
      codes left to right, then `sys.exit` only for a nonzero maximum. An empty
      sequence makes `max` raise. This is the loop form of what `Conclude`
      computes when no teardown raised, with the codes of the finished
      sessions as input. */
  method ExitStatus(codes: seq<int>) returns (exit: Exit)
    ensures codes == [] ==> exit == Raised(NoConfigurations)
    ensures codes != [] ==> exit == (if Max(codes) != 0 then SysExit(Max(codes)) else Returned)
    ensures exit.SysExit? ==> exit.code != 0 && IsMaximum(exit.code, codes)
    ensures exit.Returned? ==> IsMaximum(0, codes)
  {
    if |codes| == 0 {
      return Raised(NoConfigurations);
    }
    var best := codes[0];
    var i := 1;
    while i < |codes|
      invariant 1 <= i <= |codes|
      invariant best == Max(codes[..i])
      decreases |codes| - i
    {
      assert codes[..i + 1] == codes[..i] + [codes[i]];
      MaxSnoc(codes[..i], codes[i]);
      if codes[i] > best {
        best := codes[i];
      }
      i := i + 1;
    }
    assert codes[..i] == codes;
    if best != 0 {
      exit := SysExit(best);
    } else {
      exit := Returned;
    }
  }
}

=== FILE: result_transfer.dfy ===
/** The cross-environment loading of the report records file.

    The records are pickled inside the Oozie server container, where the record
    class lives in a top-level module called "report". On the host the same class
    lives in the package module `oozie_testing.inside_container.report`, so the
    unpickler redirects every class reference whose module is "report" to the
    local module's namespace and leaves every other reference to the default
    resolution.

    The pickle byte format is not modelled: a stream is a sequence of objects,
    each written as a class reference followed by the object's state.
 */
module ResultTransfer {

  /** The module name under which the container-side records are pickled. */
  const ReportModule: string := "report"

  /** A reference to a class as it appears in a pickle stream. */
  datatype ClassRef = ClassRef(moduleName: string, name: string)

  /** The result of resolving one class reference: the class, or the reference
      that could not be resolved (a `KeyError` on the local namespace, or
      whatever the default resolution raises). */
  datatype Resolution<T> = Found(cls: T) | NotFound(ref: ClassRef)

  /** `ReportUnpickler.find_class`: "report" references are looked up by name in
      the local namespace `local`; every other reference goes to `defaultFind`,
      which stands for `pickle.Unpickler.find_class`. */
  function FindClass<T>(local: map<string, T>, defaultFind: ClassRef -> Resolution<T>, ref: ClassRef): (r: Resolution<T>)
    ensures ref.moduleName == ReportModule ==> (r.Found? <==> ref.name in local)
    ensures ref.moduleName == ReportModule && r.Found? ==> r.cls == local[ref.name]
    ensures ref.moduleName == ReportModule && r.NotFound? ==> r.ref == ref
    ensures ref.moduleName != ReportModule ==> r == defaultFind(ref)
  {
    if ref.moduleName == ReportModule then
      if ref.name in local then Found(local[ref.name]) else NotFound(ref)
    else
      defaultFind(ref)
  }

  /** One pickled object: the reference to its class and its state. */
  datatype Pickled<S> = Pickled(ref: ClassRef, state: S)

  /** One unpickled object: its resolved class and its state. */
  datatype Obj<T, S> = Obj(cls: T, state: S)

  /** The result of `ReportUnpickler(file).load()`. */
  datatype Loaded<T, S> = Loaded(objs: seq<Obj<T, S>>) | Unresolved(ref: ClassRef)

  /** Object `i` is the first whose class reference does not resolve: every
      earlier reference resolved. */
  predicate FirstFailure<T, S>(local: map<string, T>, defaultFind: ClassRef -> Resolution<T>,
                                     stream: seq<Pickled<S>>, i: int)
  {
    && 0 <= i < |stream|
    && FindClass(local, defaultFind, stream[i].ref).NotFound?
    && forall j :: 0 <= j < i ==> FindClass(local, defaultFind, stream[j].ref).Found?
  }

  /** Loading resolves the class reference of every object in stream order with
      `FindClass`; the first reference that cannot be resolved makes the whole
      load fail. */
  function Load<T, S>(local: map<string, T>, defaultFind: ClassRef -> Resolution<T>,
                      stream: seq<Pickled<S>>): (r: Loaded<T, S>)
    ensures r.Loaded? ==> |r.objs| == |stream|
    ensures r.Loaded? ==> forall i :: 0 <= i < |stream| ==>
              r.objs[i].state == stream[i].state
              && FindClass(local, defaultFind, stream[i].ref) == Found(r.objs[i].cls)
    ensures r.Loaded? <==> forall i :: 0 <= i < |stream| ==> FindClass(local, defaultFind, stream[i].ref).Found?
    ensures r.Unresolved? ==> exists i :: FirstFailure(local, defaultFind, stream, i)
                                           && FindClass(local, defaultFind, stream[i].ref) == NotFound(r.ref)
    decreases |stream|
  {
    if stream == [] then Loaded([])
    else
      match FindClass(local, defaultFind, stream[0].ref)
      case NotFound(ref) =>
        assert FirstFailure(local, defaultFind, stream, 0);
        Unresolved(ref)
      case Found(cls) =>
        match Load(local, defaultFind, stream[1..])
        case Unresolved(ref) =>
          var i :| FirstFailure(local, defaultFind, stream[1..], i)
                   && FindClass(local, defaultFind, stream[1..][i].ref) == NotFound(ref);
          assert forall j :: 1 <= j < i + 1 ==> stream[j] == stream[1..][j - 1];
          assert FirstFailure(local, defaultFind, stream, i + 1);
          Unresolved(ref)
        case Loaded(rest) => Loaded([Obj(cls, stream[0].state)] + rest)
  }

  /** Pickling inside the container: every object's class is referenced as
      `report.<name>`, where `nameOf` gives the class's name. */
  function Dump<T, S>(objs: seq<Obj<T, S>>, nameOf: T -> string): (stream: seq<Pickled<S>>)
    ensures |stream| == |objs|
    ensures forall i :: 0 <= i < |objs| ==>
              stream[i] == Pickled(ClassRef(ReportModule, nameOf(objs[i].cls)), objs[i].state)
  {
    seq(|objs|, i requires 0 <= i < |objs| => Pickled(ClassRef(ReportModule, nameOf(objs[i].cls)), objs[i].state))
  }

  /** Every class of `objs` is reachable under its own name in the local namespace. */
  ghost predicate Registered<T(!new), S>(local: map<string, T>, nameOf: T -> string, objs: seq<Obj<T, S>>)
  {
    forall i :: 0 <= i < |objs| ==> nameOf(objs[i].cls) in local && local[nameOf(objs[i].cls)] == objs[i].cls
  }

  /** Records pickled in the container load back on the host unchanged, in order,
      none lost or duplicated, whatever the default resolution does, provided
      the local namespace holds each record class under its own name. */
  lemma LoadDumpRoundTrip<T(!new), S>(local: map<string, T>, defaultFind: ClassRef -> Resolution<T>,
                                       nameOf: T -> string, objs: seq<Obj<T, S>>)
    requires Registered(local, nameOf, objs)
    ensures Load(local, defaultFind, Dump(objs, nameOf)) == Loaded(objs)
  {
  }

  /** A record whose class name is missing from the local namespace makes the
      load fail (the namespace lookup raises `KeyError`). */
  lemma LoadFailsOnUnknownName<T, S>(local: map<string, T>, defaultFind: ClassRef -> Resolution<T>,
                                     stream: seq<Pickled<S>>, k: nat)
    requires k < |stream|
    requires stream[k].ref.moduleName == ReportModule && stream[k].ref.name !in local
    ensures Load(local, defaultFind, stream).Unresolved?
  {
  }
}
